=== FILE: README.md ===
# asgamiupdater, modelled in Dafny

asgamiupdater is an AWS Lambda handler written in Go. It runs when a Systems
Manager Parameter Store parameter of data type `aws:ec2:image` changes. It
finds the auto-scaling groups behind the EC2/on-premises blue/green CodeDeploy
deployment groups. For each group's launch template it then requests, as a dry
run (`DryRun` is set, so AWS creates no version), a new version that boots the AMI
named by the parameter. The requested version has a single block-device mapping.
It copies the device name and six EBS fields of the template's first mapping
(DeleteOnTermination, Encrypted, Iops, Throughput, VolumeSize, VolumeType), and
takes its SnapshotId from the new AMI. KmsKeyId, NoDevice, VirtualName and every
mapping after the first are not carried over. This
project models that decision logic as pure functions over the services'
answers, and proves what the code promises about it.

Modules, one per file:

- `Wrappers` (`wrappers.dfy`): `Option` (a Go pointer that may be nil) and `Result`.
- `Records` (`records.dfy`): the AWS records the handler reads and writes (`EventDetail`,
  `DeploymentGroupInfo`, `AutoScalingGroup`, `BlockDeviceMapping`, `Ebs`, `Image`,
  `LaunchTemplateVersion`, `CreateVersionRequest`). It also holds the services, modelled
  as the answers they give (`CodeDeploy`, `AutoScaling`, `Ec2`, `Ssm`). `Fatal` lists the
  conditions on which the code calls `os.Exit`. `Crash` lists those on which it panics.
- `Resolver` (`resolver.dfy`): `getApplicationNames` and `getAutoScalingGroups`.
  `ResolveApps`/`ResolveGroups` follow the Go code's nested loop. `Reference` is an
  independent staged definition: fetch every group, filter, take each first
  auto-scaling group name, look it up. `ResolveMatchesReference` proves the two equal.
- `Updater` (`updater.dfy`): `modifyLaunchTemplates`. It is a fold (`Fold`/`Step`) over
  the target groups. The fold carries the set of updated template ids and a log with
  one `AsgOutcome` per group. A create call was issued exactly for the `Created` and
  `CreateFailed` entries.
- `Handler` (`handler.dfy`): `handleRequest`. It checks the data type first, then
  resolves targets, then reads the parameter, then updates. This module also holds
  concrete runs.

How the model represents the code:

- A call that aborts the run through `os.Exit(0)` becomes `Fatal`.
- An index-out-of-range or nil-dereference panic becomes `Crash`. A crashed update run
  keeps the log of what it did before the panic, because creates issued before a
  panic did happen.
- The EC2 calls made per group (`DescribeLaunchTemplateVersions`,
  `CreateLaunchTemplateVersion`) also receive the group's position in the list.
  DescribeAutoScalingGroups receives its position among the run's lookups. The
  same request can therefore get different answers at different points of a run,
  for example a lookup that fails once and succeeds when repeated.
- The Go code reads `$Latest` and builds the request BEFORE it checks the `updated`
  map. The model keeps this order. So a group whose template is already updated still
  reads the template, and can still make the run panic.

What the code does not do:

- It does not skip a group whose image or template has no device mapping. An empty
  `Images`, `LaunchTemplateVersions` or `BlockDeviceMappings` list, or a nil `Ebs`,
  panics (`Crash`).
- It does not mark a template whose create failed. A later group that shares the
  template, whose `$Latest` read succeeds, issues a create again unless a create
  for it succeeded in between. So each template has at most one SUCCESSFUL
  create, but may receive more than one create call.
- It keeps no per-template outcome map and prints no summary. The model's outcome
  log stands in for the printed lines.

## Model

| member | source | states |
|---|---|---|
| Resolver.ResolveGroups | main.go:67-97 | The inner loop over one application's deployment groups. A failure is `GetDeploymentGroupFailed` for one of the listed names. A success only extends the accumulated targets and lookups. Its full behaviour is stated by `ResolveMatchesReference`, through `ResolveGroupsIsStaged`. |
| Resolver.ResolveApps | main.go:58-98 | The outer loop over the applications. A failure is a ListDeploymentGroups or GetDeploymentGroup failure naming one of the applications. A success only extends the accumulated targets and lookups. `ResolveMatchesReference` proves it equal to the staged reference. |
| Resolver.ApplicationNames | main.go:32-49 | Succeeds exactly when every page of the ListApplications paginator succeeds. A failed page aborts with `ListApplicationsFailed`. The names are exactly those on the pages. |
| Resolver.ApplicationNamesInPageOrder | main.go:38-46 | One more successful page adds its names after the names of the earlier pages. Pagination keeps page order. |
| Resolver.Contribution | main.go:76-95 | A deployment group leads to a DescribeAutoScalingGroups call only when it is Server and BlueGreen and names at least one group. The call is for the first name only. Targets come only from a successful call and are exactly its result. A failed call adds nothing and is not fatal. |
| Resolver.GetAutoScalingGroups | main.go:99-102 | Resolution succeeds exactly when the walk over all applications succeeds with at least one target, and then returns that walk's result. A failed walk fails with the walk's own error; a successful walk with no target fails with `NoTargets`. |
| Resolver.FetchAppGroupsSpec | main.go:67-75 | Fetching one application's deployment groups fails exactly when one GetDeploymentGroup fails. The error names that group. Otherwise the records come back in name order. |
| Resolver.FetchGroupsSpec | main.go:58-75 | The enumeration succeeds exactly when every application can be listed and every one of its groups fetched. Its error is always a ListDeploymentGroups or GetDeploymentGroup failure. |
| Resolver.CandidatesMembers | main.go:76-81 | A group is a candidate exactly when it was fetched, is Server and BlueGreen, and names an auto-scaling group. Ineligible groups and groups with no auto-scaling group are excluded. |
| Resolver.ResolveMatchesReference | main.go:52-98 | The interleaved walk gives the same result as the staged reference on every input. It fails with the first enumeration error, or yields the lookups of the candidates' first groups in enumeration order. |
| Resolver.ResolveSucceedsIff | main.go:59-75 | Resolution fails exactly when some ListDeploymentGroups or GetDeploymentGroup fails. Such a failure is never the no-targets condition. |
| Resolver.FoundMembers | main.go:86-94 | A group is among the found groups exactly when the lookup of some name, made at that name's own call position, succeeded and returned it. |
| Resolver.ReferenceTargets | main.go:83-94 | A group is a target exactly when the lookup of some candidate's first auto-scaling group, made at that candidate's call position, returned it. |
| Resolver.ReferenceDescribed | main.go:83-88 | The only names looked up are the first auto-scaling group names of candidates. Every such name is looked up. |
| Resolver.TargetsSoundAndComplete | main.go:58-98 | Once enumeration succeeds, resolution succeeds. Its targets are exactly what the lookups of the candidates among the fetched deployment groups returned, the k-th candidate's lookup being the run's k-th call. The names looked up are exactly the first auto-scaling group names of the eligible fetched deployment groups. |
| Resolver.LookupFailureSkipsOnlyThatGroup | main.go:86-93 | A failed lookup removes only that deployment group's targets, and its name is still recorded as looked up. The groups before it contribute as they would alone. The groups after it contribute as they would alone with their calls numbered after the failed one. |
| Resolver.ReferenceConcat | main.go:94 | The staged resolution of two lists of deployment groups is the resolution of the first followed by that of the second, for both targets and lookups. The second part's lookups are numbered after the first part's. So targets keep enumeration order, and duplicates are not removed. |
| Resolver.NoTargetsMeansEmptyWalk | main.go:99-102 | Resolution fails with `NoTargets` exactly when the walk over all applications succeeds and finds no target. |
| Resolver.NoTargetsIff | main.go:99-102 | The run aborts with `NoTargets` exactly when enumeration succeeds and no lookup of a candidate's first group, at its call position, returns a group. |
| Updater.NewVersionRequest | main.go:155-163 | Builds the CreateLaunchTemplateVersion request. Its shape (the group's template, the image id, one mapping with the run's snapshot, `$Latest`, DryRun) is stated by `RequestShape`. |
| Updater.Step | main.go:129-179 | One iteration of the update loop. A group without a launch template id panics (`NoLaunchTemplate`). A panic leaves the state unchanged. Otherwise exactly one outcome, for the group's template, is appended, and the template is marked exactly when that outcome is a successful create. `StepOutcome` relates the outcome to the services' answers. |
| Updater.Fold | main.go:129-180 | The update loop from a given position. It only appends to the log, at most one entry per remaining group and exactly one per group when it finishes, and never unmarks a template. `FoldSpec` states the loop invariant it keeps. |
| Updater.ModifyLaunchTemplates | main.go:111-182 | The whole update. It aborts exactly when DescribeImages fails, with `DescribeImagesFailed` of the image id. Otherwise the log has at most one entry per target, and exactly one when the loop finishes. `ModifyLaunchTemplatesSpec` states the rest. |
| Updater.RequestMapping | main.go:142-153 | The requested mapping copies DeviceName, DeleteOnTermination, Encrypted, Iops, Throughput, VolumeSize and VolumeType from the current first mapping. SnapshotId becomes the given snapshot. KmsKeyId, NoDevice and VirtualName are left unset. |
| Updater.RequestMappingRestoresCurrent | main.go:142-153 | Only the snapshot is replaced. Building the request with the current snapshot gives back the current mapping, when that mapping has none of the fields that are not copied. |
| Updater.RequestShape | main.go:155-163 | Every create request is for the group's template. It carries the new image id and exactly one device mapping, with the run's snapshot. Its source version is `$Latest` and DryRun is true. |
| Updater.CreatedIdsMembers | main.go:167-173 | A template id is in the marked set of a log exactly when that log has a successful create for it. |
| Updater.StepOutcome | main.go:129-179 | One group either panics with the state unchanged, or appends one outcome. That outcome matches the services' answers for this group. It is `AlreadyUpdated` exactly when the template was already marked. The template is marked only on a successful create. |
| Updater.StepSpec | main.go:129-179 | One step keeps the loop invariant: the marked set, the dedup characterisation, and every outcome justified. |
| Updater.InvariantAppend | main.go:165-176 | Recording an outcome for the next group keeps the loop invariant when the outcome agrees with the services' answers and its skip decision was taken against the marked set. The marked set then gains the template exactly when the create succeeded. |
| Updater.FoldSpec | main.go:129-180 | The loop keeps the invariant and only appends to the log. It gives every remaining group an outcome, or stops at the group whose data made it panic. A failed read of `$Latest` skips just that group, without marking its template. |
| Updater.ModifyLaunchTemplatesSpec | main.go:111-182 | The update aborts exactly when DescribeImages fails. An image list that is empty, or whose first image has no first mapping or no EBS settings, panics before any template is read, with `NoImage`, `NoImageMapping` or `NoImageEbs` respectively. Otherwise every outcome matches the services' answers. Every request uses the one snapshot read from the image. The marked set is the set of successfully created templates, and the dedup characterisation holds. |
| Updater.AtMostOnceCreate | main.go:165-176 | Once a create for a template has succeeded, no later group issues a create for it. So each template has at most one successful create per run. |
| Updater.FailedCreateIsRetried | main.go:167-176 | A failed create does not mark the template. The next group sharing it, if its read succeeds, issues a create again, unless a create for it succeeded in between. |
| Handler.HandleRequest | main.go:208-247 | An undecodable event, a data type other than `aws:ec2:image`, and a configuration that fails to load each abort the run. Otherwise the phases run in order, each with its own abort: a failed ListApplications page gives `ListApplicationsFailed`; a failed resolution gives its own error; a failed parameter read gives `GetParameterFailed` of the parameter's name; a failed DescribeImages gives `DescribeImagesFailed` of the image id. When every phase succeeds, the run reaches the update loop (`ReachedUpdate`), whether that loop then finishes or panics. Such a run has at least one target, resolved from the listed applications. Its image id is the parameter's value, and its update is the update of exactly those targets with that image. |
| Handler.RejectedBeforeAnyCall | main.go:216-229 | An event that cannot be decoded or is not `aws:ec2:image` is rejected. The outcome depends on no service and not on the configuration. |
| Handler.PhasesInOrder | main.go:240-245 | When resolution fails, the outcome does not depend on Parameter Store or EC2. When the parameter read fails, it does not depend on EC2. |
| Handler.ReachedUpdateDedup | main.go:165-179 | In a run that reaches the update, the marked templates are those with a successful create. The dedup characterisation holds, and no template gets a create call after one of its creates succeeded. |
| Handler.ScenarioOnlyBlueGreenServerGroups | main.go:76-94 | Application app1 has a blue/green Server group dg1 with asg1 and an in-place group dg2 with asg2. Only asg1 is resolved and only asg1 is looked up. |
| Handler.ScenarioDuplicatesKept | main.go:94 | Two eligible deployment groups that name the same auto-scaling group yield it twice, in order. |
| Handler.ScenarioTransientLookupFailure | main.go:86-94 | Two eligible deployment groups name asg1. The first lookup fails and the second succeeds. asg1 is a target once, both lookups are made, and the failure does not end the run. |
| Handler.ScenarioSharedTemplateUpdatedOnce | main.go:165-179 | Two groups share template lc1. The first creates a version. The second is skipped as already updated. |
| Handler.ScenarioFailedCreateRetried | main.go:165-176 | Two groups share template lc1. The first create fails, so the second group creates again and succeeds. |
| Handler.ScenarioUnreadableTemplateSkipped | main.go:131-140 | Reading lc1 fails for the first group, which is skipped without marking lc1. The second group sharing lc1 is still processed and creates. |

## Left out

- The AWS SDK clients, `config.LoadDefaultConfig`, `lambda.Start` and `context`. These are foreign calls. The services are inputs (the `Records` service datatypes). Loading the configuration is a boolean input.
- `json.Unmarshal` of the event detail. The detail arrives already decoded; `None` stands for a decoding failure.
- Printing and logging (`fmt`, `log`, including the event header lines) and the exit status of `os.Exit(0)`. An exit is a `Fatal` value.
- Paginator mechanics (`HasMorePages`/`NextPage`). The pages are given as the sequence the paginator obtains. A failed page is the last one fetched.
- ListDeploymentGroups is called once per application, and its continuation token is ignored. The model, like the code, sees one list of names per application.
- Nil pointers that the code dereferences and the model does not represent: `DeploymentGroupInfo`, `DeploymentStyle`, the `Name` of a deployment group's first auto-scaling group, the `DeploymentGroupName` printed after a failed lookup, the target's `AutoScalingGroupName` printed for every target (main.go:105) and for every create or skip outcome (main.go:170, 174, 178), `LaunchTemplateData` and the parameter's `Value`. The records in `Records` hold these as plain fields. A missing launch template id IS modelled, as a panic.
- `getImageIdFromParameterKey` is a single GetParameter call. It is modelled inline in `HandleRequest`: the `Ssm` oracle's answer, or `GetParameterFailed`.
- What `DryRun = true` and `SourceVersion = "$Latest"` do on the AWS side. They are recorded as request fields only. The `DryRun = false` on the two read calls is not recorded. Against real AWS a dry-run CreateLaunchTemplateVersion always answers with an error (`DryRunOperation` when permitted), so every create takes the failure branch, `updated` stays empty and the already-updated skip never happens. The `Created` and `AlreadyUpdated` outcomes arise only from the unconstrained `createVersion` answers the model admits.
- The services' own behaviour: whether DescribeAutoScalingGroups returns the named group, and what a created version contains. These answers are inputs.
- The `None` of `Option`-typed EBS fields stands for a nil pointer. `VolumeType` is not a pointer in the SDK, so it is a plain `string` whose empty value is the SDK's zero value.
- Integer widths. Iops, Throughput and VolumeSize are copied, never computed on, so they are unbounded `int`.

=== FILE: handler.dfy ===
/** The Lambda handler: the event gate, then target resolution, then the
    parameter read, then the launch-template update. */
module Handler {
  import opened Wrappers
  import opened Records
  import opened Resolver
  import opened Updater

  /** The only parameter data type the handler acts on. */
  const ImageDataType := "aws:ec2:image"

  /** Every service the handler calls, as the answers it gets. */
  datatype Services = Services(codeDeploy: CodeDeploy, autoScaling: AutoScaling, ssm: Ssm, ec2: Ec2)

  /** How a run ends: aborted by an os.Exit condition, or having reached the
      update loop. `update` says whether that loop finished or panicked; a
      panic there is a failed invocation, after the creates issued before it. */
  datatype RunOutcome =
    | Aborted(reason: Fatal)
    | ReachedUpdate(resolution: Resolution, imageId: string, update: UpdateRun)

  /** One invocation. `detail` is None when the event detail cannot be
      decoded; `configLoaded` is false when the AWS configuration cannot be
      loaded. */
  function HandleRequest(detail: Option<EventDetail>, configLoaded: bool, svc: Services): (r: RunOutcome)
    ensures detail.None? ==> r == Aborted(UnmarshalFailed)
    ensures detail.Some? && detail.value.dataType != ImageDataType ==> r == Aborted(UnsupportedEventType)
    ensures detail.Some? && detail.value.dataType == ImageDataType && !configLoaded ==> r == Aborted(ConfigLoadFailed)
    ensures r.ReachedUpdate? ==>
              && detail.Some? && detail.value.dataType == ImageDataType && configLoaded
              && ApplicationNames(svc.codeDeploy.applicationPages).Success?
              && GetAutoScalingGroups(svc.codeDeploy, svc.autoScaling,
                                      ApplicationNames(svc.codeDeploy.applicationPages).value) == Success(r.resolution)
              && |r.resolution.targets| > 0
              && svc.ssm.getParameter(detail.value.name) == Success(r.imageId)
              && ModifyLaunchTemplates(svc.ec2, r.resolution.targets, r.imageId) == Success(r.update)
    ensures detail.Some? && detail.value.dataType == ImageDataType && configLoaded ==>
              var apps := ApplicationNames(svc.codeDeploy.applicationPages);
              && (apps.Failure? ==> r == Aborted(ListApplicationsFailed))
              && (apps.Success? ==>
                    var res := GetAutoScalingGroups(svc.codeDeploy, svc.autoScaling, apps.value);
                    && (res.Failure? ==> r == Aborted(res.error))
                    && (res.Success? ==>
                          var param := svc.ssm.getParameter(detail.value.name);
                          && (param.Failure? ==> r == Aborted(GetParameterFailed(detail.value.name)))
                          && (param.Success? ==>
                                var run := ModifyLaunchTemplates(svc.ec2, res.value.targets, param.value);
                                && (run.Failure? ==> r == Aborted(DescribeImagesFailed(param.value)))
                                && (run.Success? ==> r == ReachedUpdate(res.value, param.value, run.value)))))
  {
    match detail
    case None => Aborted(UnmarshalFailed)
    case Some(d) =>
      if d.dataType != ImageDataType then Aborted(UnsupportedEventType)
      else if !configLoaded then Aborted(ConfigLoadFailed)
      else match ApplicationNames(svc.codeDeploy.applicationPages)
        case Failure(e) => Aborted(e)
        case Success(apps) =>
          match GetAutoScalingGroups(svc.codeDeploy, svc.autoScaling, apps)
          case Failure(e) => Aborted(e)
          case Success(res) =>
            match svc.ssm.getParameter(d.name)
            case Failure(_) => Aborted(GetParameterFailed(d.name))
            case Success(imageId) =>
              match ModifyLaunchTemplates(svc.ec2, res.targets, imageId)
              case Failure(e) => Aborted(e)
              case Success(run) => ReachedUpdate(res, imageId, run)
  }

  /** An event that cannot be decoded or is not about an image parameter is
      rejected before any service call: the outcome depends on no service and
      not on the configuration. */
  lemma RejectedBeforeAnyCall(detail: Option<EventDetail>, c1: bool, c2: bool, svc1: Services, svc2: Services)
    requires detail.None? || detail.value.dataType != ImageDataType
    ensures HandleRequest(detail, c1, svc1) == HandleRequest(detail, c2, svc2)
    ensures HandleRequest(detail, c1, svc1).Aborted?
  {
  }

  /** A resolution failure of any kind ends the run. */
  predicate ResolutionError(f: Fatal) {
    f.ListApplicationsFailed? || f.ListDeploymentGroupsFailed? || f.GetDeploymentGroupFailed? || f.NoTargets?
  }

  /** The phases run in order: when resolution fails, neither Parameter Store
      nor EC2 is consulted; when the parameter read fails, EC2 is not
      consulted. */
  lemma PhasesInOrder(detail: Option<EventDetail>, configLoaded: bool, svc: Services, ssm: Ssm, ec2: Ec2)
    ensures var r := HandleRequest(detail, configLoaded, svc);
            r.Aborted? && ResolutionError(r.reason) ==>
              HandleRequest(detail, configLoaded, svc.(ssm := ssm, ec2 := ec2)) == r
    ensures var r := HandleRequest(detail, configLoaded, svc);
            r.Aborted? && r.reason.GetParameterFailed? ==>
              HandleRequest(detail, configLoaded, svc.(ec2 := ec2)) == r
  {
    var r := HandleRequest(detail, configLoaded, svc);
    if r.Aborted? && detail.Some? && detail.value.dataType == ImageDataType && configLoaded {
      match ApplicationNames(svc.codeDeploy.applicationPages)
      case Failure(_) =>
      case Success(apps) =>
        match GetAutoScalingGroups(svc.codeDeploy, svc.autoScaling, apps)
        case Failure(_) =>
        case Success(res) =>
          match svc.ssm.getParameter(detail.value.name)
          case Failure(_) =>
          case Success(imageId) =>
            ModifyLaunchTemplatesSpec(svc.ec2, res.targets, imageId);
    }
  }

  /** In a run that reaches the update, the marked templates are those with a
      successful create, the dedup characterisation holds, and no template
      gets a create call after one of its creates succeeded. */
  lemma ReachedUpdateDedup(detail: Option<EventDetail>, configLoaded: bool, svc: Services, j: nat, k: nat)
    requires HandleRequest(detail, configLoaded, svc).ReachedUpdate?
    ensures var st := HandleRequest(detail, configLoaded, svc).update.state;
            && st.updated == CreatedIds(st.log)
            && DedupFaithful(st.log)
            && (j < k < |st.log| && st.log[j].Created? && st.log[k].Attempted() ==>
                  st.log[j].TemplateId() != st.log[k].TemplateId())
  {
    var r := HandleRequest(detail, configLoaded, svc);
    ModifyLaunchTemplatesSpec(svc.ec2, r.resolution.targets, r.imageId);
    var st := r.update.state;
    if j < k < |st.log| && st.log[j].Created? && st.log[k].Attempted() {
      AtMostOnceCreate(st.log, j, k);
    }
  }

  // ---------------------------------------------------------------------
  // Concrete runs.

  function AsgNamed(n: string): AutoScalingGroup {
    AutoScalingGroup(n, Some("lt-" + n))
  }

  /** CodeDeploy for the resolver scenarios: application app1 with a
      blue/green group dg1 naming asg1 and an in-place group dg2 naming asg2. */
  function BlueGreenAndInPlace(): CodeDeploy {
    CodeDeploy(
      [Success(["app1"])],
      a => Success(["dg1", "dg2"]),
      (a, g) => if g == "dg1" then Success(DeploymentGroupInfo("dg1", Server, BlueGreen, ["asg1"]))
                else Success(DeploymentGroupInfo(g, Server, InPlace, ["asg2"])))
  }

  /** CodeDeploy with application app1 whose two blue/green groups dg1 and dg2
      both name asg1. */
  function TwoGroupsNamingAsg1(): CodeDeploy {
    CodeDeploy(
      [Success(["app1"])],
      a => Success(["dg1", "dg2"]),
      (a, g) => Success(DeploymentGroupInfo(g, Server, BlueGreen, ["asg1"])))
  }

  /** Auto Scaling that finds every group it is asked for. */
  function EveryLookupFound(): AutoScaling {
    AutoScaling((k: nat, n: string) => Success([AsgNamed(n)]))
  }

  /** Auto Scaling whose first lookup fails and whose later lookups succeed. */
  function FirstLookupFails(): AutoScaling {
    AutoScaling((k: nat, n: string) => if k == 0 then Failure(ServiceError("throttled"))
                                       else Success([AsgNamed(n)]))
  }

  /** Only the blue/green EC2 deployment group contributes; the in-place one is
      excluded although it names an auto-scaling group. */
  lemma ScenarioOnlyBlueGreenServerGroups()
    ensures GetAutoScalingGroups(BlueGreenAndInPlace(), EveryLookupFound(), ["app1"]) ==
              Success(Resolution([AsgNamed("asg1")], ["asg1"]))
  {
    var cd := BlueGreenAndInPlace();
    var asc := EveryLookupFound();
    var dg1 := DeploymentGroupInfo("dg1", Server, BlueGreen, ["asg1"]);
    var dg2 := DeploymentGroupInfo("dg2", Server, InPlace, ["asg2"]);
    var names := ["dg1", "dg2"];
    assert names[1..] == ["dg2"];
    assert names[1..][1..] == [];
    var c1 := Contribution(asc, 0, dg1);
    assert c1 == Resolution([AsgNamed("asg1")], ["asg1"]);
    assert Contribution(asc, 1, dg2) == NoResolution;
    var acc := Append(NoResolution, c1);
    assert acc == c1;
    assert ResolveGroups(cd, asc, "app1", names, NoResolution) == ResolveGroups(cd, asc, "app1", ["dg2"], c1);
    assert Append(c1, NoResolution) == c1;
    assert ResolveGroups(cd, asc, "app1", ["dg2"], c1) == ResolveGroups(cd, asc, "app1", [], c1);
    var apps := ["app1"];
    assert apps[1..] == [];
    assert ResolveApps(cd, asc, apps, NoResolution) == Success(c1);
  }

  /** Two deployment groups naming the same auto-scaling group yield it twice,
      in enumeration order. */
  lemma ScenarioDuplicatesKept()
    ensures GetAutoScalingGroups(TwoGroupsNamingAsg1(), EveryLookupFound(), ["app1"]) ==
              Success(Resolution([AsgNamed("asg1"), AsgNamed("asg1")], ["asg1", "asg1"]))
  {
    var cd := TwoGroupsNamingAsg1();
    var asc := EveryLookupFound();
    var c := Resolution([AsgNamed("asg1")], ["asg1"]);
    assert Contribution(asc, 0, DeploymentGroupInfo("dg1", Server, BlueGreen, ["asg1"])) == c;
    assert Contribution(asc, 1, DeploymentGroupInfo("dg2", Server, BlueGreen, ["asg1"])) == c;
    var names := ["dg1", "dg2"];
    assert names[1..] == ["dg2"];
    assert names[1..][1..] == [];
    assert Append(NoResolution, c) == c;
    var twice := Resolution([AsgNamed("asg1"), AsgNamed("asg1")], ["asg1", "asg1"]);
    assert Append(c, c) == twice;
    assert ResolveGroups(cd, asc, "app1", names, NoResolution) == ResolveGroups(cd, asc, "app1", ["dg2"], c);
    assert ResolveGroups(cd, asc, "app1", ["dg2"], c) == ResolveGroups(cd, asc, "app1", [], twice);
    var apps := ["app1"];
    assert apps[1..] == [];
    assert ResolveApps(cd, asc, apps, NoResolution) == Success(twice);
  }

  /** The first lookup of asg1 fails and the second, for another deployment
      group naming it, succeeds: the group is a target once, both calls are
      made, and the failure is not fatal. */
  lemma ScenarioTransientLookupFailure()
    ensures GetAutoScalingGroups(TwoGroupsNamingAsg1(), FirstLookupFails(), ["app1"]) ==
              Success(Resolution([AsgNamed("asg1")], ["asg1", "asg1"]))
  {
    var cd := TwoGroupsNamingAsg1();
    var asc := FirstLookupFails();
    var failed := Resolution([], ["asg1"]);
    assert Contribution(asc, 0, DeploymentGroupInfo("dg1", Server, BlueGreen, ["asg1"])) == failed;
    assert Contribution(asc, 1, DeploymentGroupInfo("dg2", Server, BlueGreen, ["asg1"])) == Resolution([AsgNamed("asg1")], ["asg1"]);
    var names := ["dg1", "dg2"];
    assert names[1..] == ["dg2"];
    assert names[1..][1..] == [];
    assert Append(NoResolution, failed) == failed;
    var both := Resolution([AsgNamed("asg1")], ["asg1", "asg1"]);
    assert Append(failed, Resolution([AsgNamed("asg1")], ["asg1"])) == both;
    assert ResolveGroups(cd, asc, "app1", names, NoResolution) == ResolveGroups(cd, asc, "app1", ["dg2"], failed);
    assert ResolveGroups(cd, asc, "app1", ["dg2"], failed) == ResolveGroups(cd, asc, "app1", [], both);
    var apps := ["app1"];
    assert apps[1..] == [];
    assert ResolveApps(cd, asc, apps, NoResolution) == Success(both);
  }

  /** A template mapping used by the update scenarios. */
  function RootMapping(): BlockDeviceMapping {
    BlockDeviceMapping(Some("/dev/xvda"),
                       Some(Ebs(Some(true), Some(false), Some(3000), None, Some("snap-old"), Some(125), Some(8), "gp3")),
                       None, None)
  }

  /** EC2 answering every read of $Latest at the positions `readable` accepts
      and every create at the positions `createSucceeds` accepts. */
  function ScenarioEc2(readable: nat -> bool, createSucceeds: nat -> bool): Ec2 {
    Ec2(id => Success([Image(id, [RootMapping().(ebs := Some(RootMapping().ebs.value.(snapshotId := Some("snap-new"))))])]),
        (k: nat, t: string) => if readable(k) then Success([LaunchTemplateVersion([RootMapping()])])
                               else Failure(ServiceError("read failed")),
        (k: nat, req: CreateVersionRequest) => if createSucceeds(k) then Success(()) else Failure(ServiceError("create failed")))
  }

  function ScenarioRequest(): CreateVersionRequest {
    NewVersionRequest("lc1", "ami-123", RequestMapping(RootMapping(), Some("snap-new")))
  }

  /** Two auto-scaling groups sharing one template: one create, then a skip. */
  lemma ScenarioSharedTemplateUpdatedOnce()
    ensures ModifyLaunchTemplates(ScenarioEc2(k => true, k => true),
                                  [AutoScalingGroup("asg1", Some("lc1")), AutoScalingGroup("asg2", Some("lc1"))],
                                  "ami-123")
            == Success(Finished(UpdateState({"lc1"}, [Created(ScenarioRequest()), AlreadyUpdated("lc1")])))
  {
    var ec2 := ScenarioEc2(k => true, k => true);
    var asgs := [AutoScalingGroup("asg1", Some("lc1")), AutoScalingGroup("asg2", Some("lc1"))];
    var s1 := UpdateState({"lc1"}, [Created(ScenarioRequest())]);
    assert Step(ec2, "ami-123", Some("snap-new"), 0, asgs[0], Initial) == Finished(s1);
    var s2 := UpdateState({"lc1"}, [Created(ScenarioRequest()), AlreadyUpdated("lc1")]);
    assert Step(ec2, "ami-123", Some("snap-new"), 1, asgs[1], s1) == Finished(s2);
    assert Fold(ec2, "ami-123", Some("snap-new"), asgs, 1, s1) == Finished(s2);
  }

  /** A failed create leaves the template unmarked, so the next group sharing
      it creates again. */
  lemma ScenarioFailedCreateRetried()
    ensures ModifyLaunchTemplates(ScenarioEc2(k => true, k => k > 0),
                                  [AutoScalingGroup("asg1", Some("lc1")), AutoScalingGroup("asg2", Some("lc1"))],
                                  "ami-123")
            == Success(Finished(UpdateState({"lc1"}, [CreateFailed(ScenarioRequest()), Created(ScenarioRequest())])))
  {
    var ec2 := ScenarioEc2(k => true, k => k > 0);
    var asgs := [AutoScalingGroup("asg1", Some("lc1")), AutoScalingGroup("asg2", Some("lc1"))];
    var s1 := UpdateState({}, [CreateFailed(ScenarioRequest())]);
    assert Step(ec2, "ami-123", Some("snap-new"), 0, asgs[0], Initial) == Finished(s1);
    var s2 := UpdateState({"lc1"}, [CreateFailed(ScenarioRequest()), Created(ScenarioRequest())]);
    assert Step(ec2, "ami-123", Some("snap-new"), 1, asgs[1], s1) == Finished(s2);
    assert Fold(ec2, "ami-123", Some("snap-new"), asgs, 1, s1) == Finished(s2);
  }

  /** A group whose template cannot be read is skipped without marking the
      template; the next group sharing it is still processed and creates. */
  lemma ScenarioUnreadableTemplateSkipped()
    ensures ModifyLaunchTemplates(ScenarioEc2(k => k > 0, k => true),
                                  [AutoScalingGroup("asg1", Some("lc1")), AutoScalingGroup("asg2", Some("lc1"))],
                                  "ami-123")
            == Success(Finished(UpdateState({"lc1"}, [TemplateUnreadable("lc1"), Created(ScenarioRequest())])))
  {
    var ec2 := ScenarioEc2(k => k > 0, k => true);
    var asgs := [AutoScalingGroup("asg1", Some("lc1")), AutoScalingGroup("asg2", Some("lc1"))];
    var s1 := UpdateState({}, [TemplateUnreadable("lc1")]);
    assert Step(ec2, "ami-123", Some("snap-new"), 0, asgs[0], Initial) == Finished(s1);
    var s2 := UpdateState({"lc1"}, [TemplateUnreadable("lc1"), Created(ScenarioRequest())]);
    assert Step(ec2, "ami-123", Some("snap-new"), 1, asgs[1], s1) == Finished(s2);
    assert Fold(ec2, "ami-123", Some("snap-new"), asgs, 1, s1) == Finished(s2);
  }
}

=== FILE: records.dfy ===
/** The records the handler reads from and writes to AWS, and the services
    themselves, modelled as the answers they give. */
module Records {
  import opened Wrappers

  /** The error value of a failed service call; only its presence matters. */
  datatype ServiceError = ServiceError(message: string)

  /** The `detail` of a Parameter Store change event, already decoded from JSON. */
  datatype EventDetail = EventDetail(
    dataType: string,
    name: string,
    description: string,
    parameterType: string,
    operation: string)

  /** CodeDeploy compute platforms. */
  datatype ComputePlatform = Server | Lambda | Ecs

  /** CodeDeploy deployment types. */
  datatype DeploymentType = InPlace | BlueGreen

  /** What GetDeploymentGroup reports about one deployment group; the
      auto-scaling groups are given by name. */
  datatype DeploymentGroupInfo = DeploymentGroupInfo(
    name: string,
    computePlatform: ComputePlatform,
    deploymentType: DeploymentType,
    autoScalingGroups: seq<string>)

  /** An auto-scaling group as DescribeAutoScalingGroups returns it;
      `launchTemplateId` is None when the group has no launch template id. */
  datatype AutoScalingGroup = AutoScalingGroup(name: string, launchTemplateId: Option<string>)

  /** EBS settings of a block-device mapping (the same fields in the
      response and in the request). The SDK holds `VolumeType` as a plain
      string enum rather than a pointer; its zero value is the empty string. */
  datatype Ebs = Ebs(
    deleteOnTermination: Option<bool>,
    encrypted: Option<bool>,
    iops: Option<int>,
    kmsKeyId: Option<string>,
    snapshotId: Option<string>,
    throughput: Option<int>,
    volumeSize: Option<int>,
    volumeType: string)

  datatype BlockDeviceMapping = BlockDeviceMapping(
    deviceName: Option<string>,
    ebs: Option<Ebs>,
    noDevice: Option<string>,
    virtualName: Option<string>)

  /** An AMI as DescribeImages returns it. */
  datatype Image = Image(imageId: string, blockDeviceMappings: seq<BlockDeviceMapping>)

  /** The launch-template data of one version, reduced to its device mappings. */
  datatype LaunchTemplateVersion = LaunchTemplateVersion(blockDeviceMappings: seq<BlockDeviceMapping>)

  /** A CreateLaunchTemplateVersion request. */
  datatype CreateVersionRequest = CreateVersionRequest(
    launchTemplateId: string,
    imageId: string,
    blockDeviceMappings: seq<BlockDeviceMapping>,
    sourceVersion: string,
    dryRun: bool)

  /** CodeDeploy: the pages the ListApplications paginator obtains, in order,
      and the answers to ListDeploymentGroups and GetDeploymentGroup. */
  datatype CodeDeploy = CodeDeploy(
    applicationPages: seq<Result<seq<string>, ServiceError>>,
    listDeploymentGroups: string -> Result<seq<string>, ServiceError>,
    getDeploymentGroup: (string, string) -> Result<DeploymentGroupInfo, ServiceError>)

  /** Auto Scaling: DescribeAutoScalingGroups for a single group name. The
      call also receives its position among the run's DescribeAutoScalingGroups
      calls, so that repeated lookups of one name may be answered differently. */
  datatype AutoScaling = AutoScaling(describe: (nat, string) -> Result<seq<AutoScalingGroup>, ServiceError>)

  /** EC2. The two per-group calls also receive the position of the
      auto-scaling group being processed, so that the same request may be
      answered differently at different points of a run. */
  datatype Ec2 = Ec2(
    describeImages: string -> Result<seq<Image>, ServiceError>,
    latestVersions: (nat, string) -> Result<seq<LaunchTemplateVersion>, ServiceError>,
    createVersion: (nat, CreateVersionRequest) -> Result<(), ServiceError>)

  /** Systems Manager Parameter Store: GetParameter, by name. */
  datatype Ssm = Ssm(getParameter: string -> Result<string, ServiceError>)

  /** Conditions on which the handler calls os.Exit: the run ends there. */
  datatype Fatal =
    | UnmarshalFailed
    | UnsupportedEventType
    | ConfigLoadFailed
    | ListApplicationsFailed
    | ListDeploymentGroupsFailed(application: string)
    | GetDeploymentGroupFailed(application: string, deploymentGroup: string)
    | NoTargets
    | GetParameterFailed(parameter: string)
    | DescribeImagesFailed(imageId: string)

  /** Conditions on which the handler panics (an index out of range or a nil
      dereference): the run ends there, after whatever it already did. */
  datatype Crash =
    | NoImage
    | NoImageMapping
    | NoImageEbs
    | NoLaunchTemplate(autoScalingGroup: string)
    | NoTemplateVersion(launchTemplateId: string)
    | NoTemplateMapping(launchTemplateId: string)
    | NoTemplateEbs(launchTemplateId: string)
}

=== FILE: resolver.dfy ===
/** Target resolution: CodeDeploy applications, then their deployment groups,
    then the auto-scaling groups of the eligible ones. */
module Resolver {
  import opened Wrappers
  import opened Records

  /** Application names: the paginator's pages concatenated in order. A page
      that fails aborts the run. */
  function ApplicationNames(pages: seq<Result<seq<string>, ServiceError>>): (r: Result<seq<string>, Fatal>)
    ensures r.Success? <==> forall k :: 0 <= k < |pages| ==> pages[k].Success?
    ensures r.Failure? ==> r.error == ListApplicationsFailed
    ensures r.Success? ==> forall k, a :: 0 <= k < |pages| && a in pages[k].value ==> a in r.value
    ensures r.Success? ==> forall a :: a in r.value ==> exists k :: 0 <= k < |pages| && a in pages[k].value
  {
    if |pages| == 0 then Success([])
    else match pages[0]
      case Failure(_) => Failure(ListApplicationsFailed)
      case Success(page) =>
        match ApplicationNames(pages[1..])
        case Failure(e) => Failure(e)
        case Success(rest) =>
          Success(page + rest)
  }

  /** The names come out in page order: a further successful page is appended
      after the names of the earlier pages. */
  lemma {:induction false} ApplicationNamesInPageOrder(pages: seq<Result<seq<string>, ServiceError>>, page: seq<string>)
    ensures ApplicationNames(pages).Failure? ==> ApplicationNames(pages + [Success(page)]) == ApplicationNames(pages)
    ensures ApplicationNames(pages).Success? ==>
              ApplicationNames(pages + [Success(page)]) == Success(ApplicationNames(pages).value + page)
    decreases |pages|
  {
    if |pages| == 0 {
      var single: seq<Result<seq<string>, ServiceError>> := [Success(page)];
      assert pages + [Success(page)] == single;
      assert single[1..] == [];
      assert ApplicationNames(single[1..]) == Success([]);
      assert page + [] == page;
      assert [] + page == page;
      assert ApplicationNames(single) == Success(page);
    } else {
      assert (pages + [Success(page)])[1..] == pages[1..] + [Success(page)];
      ApplicationNamesInPageOrder(pages[1..], page);
      match pages[0]
      case Failure(_) =>
      case Success(first) =>
        match ApplicationNames(pages[1..])
        case Failure(_) =>
        case Success(rest) =>
          assert first + (rest + page) == (first + rest) + page;
    }
  }

  /** The eligibility filter: an EC2/on-premises platform with a blue/green
      deployment type. */
  predicate Eligible(g: DeploymentGroupInfo) {
    g.computePlatform == Server && g.deploymentType == BlueGreen
  }

  /** What resolution accumulates: the target groups, and the names passed to
      DescribeAutoScalingGroups, each in call order. */
  datatype Resolution = Resolution(targets: seq<AutoScalingGroup>, described: seq<string>)

  const NoResolution := Resolution([], [])

  function Append(a: Resolution, b: Resolution): Resolution {
    Resolution(a.targets + b.targets, a.described + b.described)
  }

  /** What one fetched deployment group adds when it would make the run's
      `call`-th DescribeAutoScalingGroups call. Only an eligible group with at
      least one auto-scaling group leads to a lookup, and only of its first
      group; a failed lookup adds no target and is not fatal. */
  function Contribution(asc: AutoScaling, call: nat, g: DeploymentGroupInfo): (r: Resolution)
    ensures r.described == [] <==> !(Eligible(g) && |g.autoScalingGroups| > 0)
    ensures r.described != [] ==> r.described == [g.autoScalingGroups[0]]
    ensures r.targets != [] ==>
              Eligible(g) && |g.autoScalingGroups| > 0 && asc.describe(call, g.autoScalingGroups[0]).Success?
    ensures Eligible(g) && |g.autoScalingGroups| > 0 && asc.describe(call, g.autoScalingGroups[0]).Success? ==>
              r.targets == asc.describe(call, g.autoScalingGroups[0]).value
  {
    if !Eligible(g) || |g.autoScalingGroups| == 0 then NoResolution
    else
      var first := g.autoScalingGroups[0];
      match asc.describe(call, first)
      case Failure(_) => Resolution([], [first])
      case Success(found) => Resolution(found, [first])
  }

  /** The deployment groups of one application, fetched one by one; a failed
      fetch aborts the run. The result is added to `acc`, whose lookups so far
      number the next DescribeAutoScalingGroups call. */
  function ResolveGroups(cd: CodeDeploy, asc: AutoScaling, app: string, names: seq<string>, acc: Resolution)
    : (r: Result<Resolution, Fatal>)
    ensures r.Failure? ==> exists j :: 0 <= j < |names| && r.error == GetDeploymentGroupFailed(app, names[j])
    ensures r.Success? ==> acc.targets <= r.value.targets && acc.described <= r.value.described
    decreases |names|
  {
    if |names| == 0 then Success(acc)
    else match cd.getDeploymentGroup(app, names[0])
      case Failure(_) => Failure(GetDeploymentGroupFailed(app, names[0]))
      case Success(g) => ResolveGroups(cd, asc, app, names[1..], Append(acc, Contribution(asc, |acc.described|, g)))
  }

  /** All applications in order; a failed ListDeploymentGroups aborts the run. */
  function ResolveApps(cd: CodeDeploy, asc: AutoScaling, apps: seq<string>, acc: Resolution)
    : (r: Result<Resolution, Fatal>)
    ensures r.Failure? ==> (r.error.ListDeploymentGroupsFailed? || r.error.GetDeploymentGroupFailed?) && r.error.application in apps
    ensures r.Success? ==> acc.targets <= r.value.targets && acc.described <= r.value.described
    decreases |apps|
  {
    if |apps| == 0 then Success(acc)
    else match cd.listDeploymentGroups(apps[0])
      case Failure(_) => Failure(ListDeploymentGroupsFailed(apps[0]))
      case Success(names) =>
        match ResolveGroups(cd, asc, apps[0], names, acc)
        case Failure(e) => Failure(e)
        case Success(acc') => ResolveApps(cd, asc, apps[1..], acc')
  }

  /** Resolution as the handler runs it: an empty target list aborts the run. */
  function GetAutoScalingGroups(cd: CodeDeploy, asc: AutoScaling, apps: seq<string>): (r: Result<Resolution, Fatal>)
    ensures r.Success? ==> |r.value.targets| > 0
    ensures r.Success? <==> ResolveApps(cd, asc, apps, NoResolution).Success?
                            && |ResolveApps(cd, asc, apps, NoResolution).value.targets| > 0
    ensures r.Success? ==> r.value == ResolveApps(cd, asc, apps, NoResolution).value
    ensures ResolveApps(cd, asc, apps, NoResolution).Failure? ==> r == ResolveApps(cd, asc, apps, NoResolution)
    ensures ResolveApps(cd, asc, apps, NoResolution).Success? && |ResolveApps(cd, asc, apps, NoResolution).value.targets| == 0 ==>
              r == Failure(NoTargets)
  {
    var res :- ResolveApps(cd, asc, apps, NoResolution);
    if |res.targets| == 0 then Failure(NoTargets) else Success(res)
  }

  // ---------------------------------------------------------------------
  // A staged reference: fetch every deployment group first, then filter,
  // then look up the first auto-scaling group of each candidate.

  /** Every deployment group of `app` can be listed and fetched. */
  ghost predicate GroupsFetchable(cd: CodeDeploy, app: string) {
    && cd.listDeploymentGroups(app).Success?
    && forall j :: 0 <= j < |cd.listDeploymentGroups(app).value| ==>
         cd.getDeploymentGroup(app, cd.listDeploymentGroups(app).value[j]).Success?
  }

  /** The records of the named deployment groups of `app`, in order. */
  function FetchAppGroups(cd: CodeDeploy, app: string, names: seq<string>): Result<seq<DeploymentGroupInfo>, Fatal>
    decreases |names|
  {
    if |names| == 0 then Success([])
    else match cd.getDeploymentGroup(app, names[0])
      case Failure(_) => Failure(GetDeploymentGroupFailed(app, names[0]))
      case Success(g) =>
        match FetchAppGroups(cd, app, names[1..])
        case Failure(e) => Failure(e)
        case Success(gs) => Success([g] + gs)
  }

  /** The records of every deployment group of every application, in
      enumeration order. */
  function FetchGroups(cd: CodeDeploy, apps: seq<string>): Result<seq<DeploymentGroupInfo>, Fatal>
    decreases |apps|
  {
    if |apps| == 0 then Success([])
    else match cd.listDeploymentGroups(apps[0])
      case Failure(_) => Failure(ListDeploymentGroupsFailed(apps[0]))
      case Success(names) =>
        match FetchAppGroups(cd, apps[0], names)
        case Failure(e) => Failure(e)
        case Success(gs) =>
          match FetchGroups(cd, apps[1..])
          case Failure(e) => Failure(e)
          case Success(rest) => Success(gs + rest)
  }

  /** Fetching one application's groups fails exactly when one fetch fails,
      names that group in its error, and otherwise returns the records in
      the order of the names. */
  lemma {:induction false} FetchAppGroupsSpec(cd: CodeDeploy, app: string, names: seq<string>)
    ensures FetchAppGroups(cd, app, names).Success? <==>
            forall j :: 0 <= j < |names| ==> cd.getDeploymentGroup(app, names[j]).Success?
    ensures FetchAppGroups(cd, app, names).Success? ==>
              |FetchAppGroups(cd, app, names).value| == |names| &&
              forall j :: 0 <= j < |names| ==>
                FetchAppGroups(cd, app, names).value[j] == cd.getDeploymentGroup(app, names[j]).value
    ensures FetchAppGroups(cd, app, names).Failure? ==>
              exists j :: 0 <= j < |names| && cd.getDeploymentGroup(app, names[j]).Failure? &&
                          FetchAppGroups(cd, app, names).error == GetDeploymentGroupFailed(app, names[j])
    decreases |names|
  {
    if |names| > 0 {
      FetchAppGroupsSpec(cd, app, names[1..]);
      forall j | 0 < j < |names|
        ensures names[j] == names[1..][j - 1]
      {
      }
      if FetchAppGroups(cd, app, names).Failure? && cd.getDeploymentGroup(app, names[0]).Success? {
        var j :| 0 <= j < |names[1..]| && cd.getDeploymentGroup(app, names[1..][j]).Failure? &&
                 FetchAppGroups(cd, app, names[1..]).error == GetDeploymentGroupFailed(app, names[1..][j]);
        assert names[1..][j] == names[j + 1];
      }
    }
  }

  /** Fetching all groups fails exactly when some application cannot be
      listed or one of its groups cannot be fetched, and its error is then
      one of those two enumeration failures. */
  lemma {:induction false} FetchGroupsSpec(cd: CodeDeploy, apps: seq<string>)
    ensures FetchGroups(cd, apps).Success? <==> forall k :: 0 <= k < |apps| ==> GroupsFetchable(cd, apps[k])
    ensures FetchGroups(cd, apps).Failure? ==>
              FetchGroups(cd, apps).error.ListDeploymentGroupsFailed? ||
              FetchGroups(cd, apps).error.GetDeploymentGroupFailed?
    decreases |apps|
  {
    if |apps| > 0 {
      FetchGroupsSpec(cd, apps[1..]);
      forall k | 0 < k < |apps|
        ensures apps[k] == apps[1..][k - 1]
      {
      }
      match cd.listDeploymentGroups(apps[0])
      case Failure(_) =>
      case Success(names) =>
        FetchAppGroupsSpec(cd, apps[0], names);
        if FetchAppGroups(cd, apps[0], names).Failure? {
          var j :| 0 <= j < |names| && cd.getDeploymentGroup(apps[0], names[j]).Failure?;
          assert !GroupsFetchable(cd, apps[0]);
        }
    }
  }

  /** The eligible deployment groups that name at least one auto-scaling group. */
  function Candidates(gs: seq<DeploymentGroupInfo>): (r: seq<DeploymentGroupInfo>)
    ensures forall k :: 0 <= k < |r| ==> Eligible(r[k]) && |r[k].autoScalingGroups| > 0
  {
    if |gs| == 0 then []
    else if Eligible(gs[0]) && |gs[0].autoScalingGroups| > 0 then [gs[0]] + Candidates(gs[1..])
    else Candidates(gs[1..])
  }

  /** The first auto-scaling group name of each candidate. */
  function FirstNames(cs: seq<DeploymentGroupInfo>): (r: seq<string>)
    requires forall k :: 0 <= k < |cs| ==> |cs[k].autoScalingGroups| > 0
    ensures |r| == |cs|
    ensures forall k :: 0 <= k < |cs| ==> r[k] == cs[k].autoScalingGroups[0]
  {
    if |cs| == 0 then [] else [cs[0].autoScalingGroups[0]] + FirstNames(cs[1..])
  }

  /** The groups returned by the successful lookups of `names`, the first of
      them being the run's `call`-th DescribeAutoScalingGroups call. */
  function Found(asc: AutoScaling, call: nat, names: seq<string>): seq<AutoScalingGroup>
    decreases |names|
  {
    if |names| == 0 then []
    else
      var rest := Found(asc, call + 1, names[1..]);
      match asc.describe(call, names[0])
      case Failure(_) => rest
      case Success(found) => found + rest
  }

  /** A candidate is exactly an eligible fetched group with an auto-scaling group. */
  lemma {:induction false} CandidatesMembers(gs: seq<DeploymentGroupInfo>, g: DeploymentGroupInfo)
    ensures g in Candidates(gs) <==> g in gs && Eligible(g) && |g.autoScalingGroups| > 0
    decreases |gs|
  {
    if |gs| > 0 {
      CandidatesMembers(gs[1..], g);
      assert g in gs <==> g == gs[0] || g in gs[1..];
    }
  }

  /** The lookup of `names[k]`, the run's `call + k`-th call, succeeded and returned `t`. */
  ghost predicate NameReturned(asc: AutoScaling, call: nat, names: seq<string>, k: int, t: AutoScalingGroup) {
    && 0 <= k < |names|
    && asc.describe(call + k, names[k]).Success?
    && t in asc.describe(call + k, names[k]).value
  }

  /** A group is found exactly when the lookup of some name, at its own call
      position, returned it. */
  lemma {:induction false} FoundMembers(asc: AutoScaling, call: nat, names: seq<string>, t: AutoScalingGroup)
    ensures t in Found(asc, call, names) <==> exists k :: NameReturned(asc, call, names, k, t)
    decreases |names|
  {
    if |names| > 0 {
      FoundMembers(asc, call + 1, names[1..], t);
      var here := asc.describe(call, names[0]);
      var rest := Found(asc, call + 1, names[1..]);
      assert Found(asc, call, names) == if here.Success? then here.value + rest else rest;
      if here.Success? && t in here.value {
        assert NameReturned(asc, call, names, 0, t);
      }
      if t in rest {
        var k :| NameReturned(asc, call + 1, names[1..], k, t);
        assert names[1..][k] == names[k + 1];
        assert NameReturned(asc, call, names, k + 1, t);
      }
      if k :| NameReturned(asc, call, names, k, t) {
        if k > 0 {
          assert names[1..][k - 1] == names[k];
          assert NameReturned(asc, call + 1, names[1..], k - 1, t);
        }
      }
    }
  }

  /** Resolution of an already fetched list of deployment groups, staged,
      its first lookup being the run's `call`-th DescribeAutoScalingGroups call. */
  function Reference(asc: AutoScaling, call: nat, gs: seq<DeploymentGroupInfo>): Resolution {
    var names := FirstNames(Candidates(gs));
    Resolution(Found(asc, call, names), names)
  }

  /** The staged resolution of `gs`, continuing after `acc`. */
  function Extend(asc: AutoScaling, acc: Resolution, gs: seq<DeploymentGroupInfo>): Resolution {
    Append(acc, Reference(asc, |acc.described|, gs))
  }

  lemma {:induction false} CandidatesConcat(gs1: seq<DeploymentGroupInfo>, gs2: seq<DeploymentGroupInfo>)
    ensures Candidates(gs1 + gs2) == Candidates(gs1) + Candidates(gs2)
    decreases |gs1|
  {
    if |gs1| == 0 {
      assert gs1 + gs2 == gs2;
    } else {
      assert (gs1 + gs2)[0] == gs1[0];
      assert (gs1 + gs2)[1..] == gs1[1..] + gs2;
      CandidatesConcat(gs1[1..], gs2);
    }
  }

  lemma FirstNamesConcat(cs1: seq<DeploymentGroupInfo>, cs2: seq<DeploymentGroupInfo>)
    requires forall k :: 0 <= k < |cs1| ==> |cs1[k].autoScalingGroups| > 0
    requires forall k :: 0 <= k < |cs2| ==> |cs2[k].autoScalingGroups| > 0
    ensures FirstNames(cs1 + cs2) == FirstNames(cs1) + FirstNames(cs2)
  {
    var r := FirstNames(cs1 + cs2);
    var r' := FirstNames(cs1) + FirstNames(cs2);
    forall k | 0 <= k < |r|
      ensures r[k] == r'[k]
    {
      if k < |cs1| {
        assert (cs1 + cs2)[k] == cs1[k];
      } else {
        assert (cs1 + cs2)[k] == cs2[k - |cs1|];
      }
    }
  }

  lemma {:induction false} FoundConcat(asc: AutoScaling, call: nat, names1: seq<string>, names2: seq<string>)
    ensures Found(asc, call, names1 + names2) == Found(asc, call, names1) + Found(asc, call + |names1|, names2)
    decreases |names1|
  {
    if |names1| == 0 {
      assert names1 + names2 == names2;
    } else {
      assert (names1 + names2)[0] == names1[0];
      assert (names1 + names2)[1..] == names1[1..] + names2;
      FoundConcat(asc, call + 1, names1[1..], names2);
      match asc.describe(call, names1[0])
      case Failure(_) =>
      case Success(found) =>
        assert found + (Found(asc, call + 1, names1[1..]) + Found(asc, call + |names1|, names2))
            == (found + Found(asc, call + 1, names1[1..])) + Found(asc, call + |names1|, names2);
    }
  }

  /** The staged reference is compositional over concatenation: the groups
      after the first part resolve with their lookups numbered after the
      first part's lookups. So targets keep enumeration order, and a group
      returned for two deployment groups is a target twice. */
  lemma ReferenceConcat(asc: AutoScaling, call: nat, gs1: seq<DeploymentGroupInfo>, gs2: seq<DeploymentGroupInfo>)
    ensures Reference(asc, call, gs1 + gs2) ==
            Append(Reference(asc, call, gs1), Reference(asc, call + |Reference(asc, call, gs1).described|, gs2))
  {
    CandidatesConcat(gs1, gs2);
    FirstNamesConcat(Candidates(gs1), Candidates(gs2));
    FoundConcat(asc, call, FirstNames(Candidates(gs1)), FirstNames(Candidates(gs2)));
  }

  /** A single deployment group resolves to its own contribution. */
  lemma ReferenceSingle(asc: AutoScaling, call: nat, g: DeploymentGroupInfo)
    ensures Reference(asc, call, [g]) == Contribution(asc, call, g)
  {
    var single := [g];
    assert single[1..] == [];
    if Eligible(g) && |g.autoScalingGroups| > 0 {
      assert Candidates(single) == single;
      var first := [g.autoScalingGroups[0]];
      assert FirstNames(single) == first;
      assert first[1..] == [];
      assert Found(asc, call + 1, first[1..]) == [];
      match asc.describe(call, g.autoScalingGroups[0])
      case Failure(_) =>
      case Success(found) =>
        assert found + [] == found;
    } else {
      assert Candidates(single) == [];
    }
  }

  lemma ReferenceEmpty(asc: AutoScaling, acc: Resolution)
    ensures Extend(asc, acc, []) == acc
  {
    var none: seq<DeploymentGroupInfo> := [];
    assert Candidates(none) == [];
    assert FirstNames(Candidates(none)) == [];
    assert acc.targets + [] == acc.targets;
    assert acc.described + [] == acc.described;
  }

  lemma AppendAssociative(a: Resolution, b: Resolution, c: Resolution)
    ensures Append(Append(a, b), c) == Append(a, Append(b, c))
  {
    assert a.targets + b.targets + c.targets == a.targets + (b.targets + c.targets);
    assert a.described + b.described + c.described == a.described + (b.described + c.described);
  }

  lemma ReferenceConcatAfter(asc: AutoScaling, acc: Resolution, gs1: seq<DeploymentGroupInfo>, gs2: seq<DeploymentGroupInfo>)
    ensures Extend(asc, Extend(asc, acc, gs1), gs2) == Extend(asc, acc, gs1 + gs2)
  {
    var call := |acc.described|;
    ReferenceConcat(asc, call, gs1, gs2);
    AppendAssociative(acc, Reference(asc, call, gs1), Reference(asc, call + |Reference(asc, call, gs1).described|, gs2));
  }

  lemma ReferenceConsAfter(asc: AutoScaling, acc: Resolution, g: DeploymentGroupInfo, gs: seq<DeploymentGroupInfo>)
    ensures Extend(asc, Append(acc, Contribution(asc, |acc.described|, g)), gs) == Extend(asc, acc, [g] + gs)
  {
    ReferenceSingle(asc, |acc.described|, g);
    ReferenceConcatAfter(asc, acc, [g], gs);
  }

  lemma {:induction false} ResolveGroupsIsStaged(cd: CodeDeploy, asc: AutoScaling, app: string, names: seq<string>, acc: Resolution)
    ensures FetchAppGroups(cd, app, names).Failure? ==>
              ResolveGroups(cd, asc, app, names, acc) == Failure(FetchAppGroups(cd, app, names).error)
    ensures FetchAppGroups(cd, app, names).Success? ==>
              ResolveGroups(cd, asc, app, names, acc) == Success(Extend(asc, acc, FetchAppGroups(cd, app, names).value))
    decreases |names|
  {
    if |names| == 0 {
      ReferenceEmpty(asc, acc);
    } else {
      match cd.getDeploymentGroup(app, names[0])
      case Failure(_) =>
      case Success(g) =>
        var acc' := Append(acc, Contribution(asc, |acc.described|, g));
        ResolveGroupsIsStaged(cd, asc, app, names[1..], acc');
        match FetchAppGroups(cd, app, names[1..])
        case Failure(_) =>
        case Success(gs) =>
          ReferenceConsAfter(asc, acc, g, gs);
    }
  }

  lemma {:induction false} ResolveAppsIsStaged(cd: CodeDeploy, asc: AutoScaling, apps: seq<string>, acc: Resolution)
    ensures FetchGroups(cd, apps).Failure? ==>
              ResolveApps(cd, asc, apps, acc) == Failure(FetchGroups(cd, apps).error)
    ensures FetchGroups(cd, apps).Success? ==>
              ResolveApps(cd, asc, apps, acc) == Success(Extend(asc, acc, FetchGroups(cd, apps).value))
    decreases |apps|
  {
    if |apps| == 0 {
      ReferenceEmpty(asc, acc);
    } else {
      match cd.listDeploymentGroups(apps[0])
      case Failure(_) =>
      case Success(names) =>
        ResolveGroupsIsStaged(cd, asc, apps[0], names, acc);
        match FetchAppGroups(cd, apps[0], names)
        case Failure(_) =>
        case Success(gs) =>
          var acc' := Extend(asc, acc, gs);
          ResolveAppsIsStaged(cd, asc, apps[1..], acc');
          match FetchGroups(cd, apps[1..])
          case Failure(_) =>
          case Success(rest) =>
            ReferenceConcatAfter(asc, acc, gs, rest);
    }
  }

  /** The interleaved walk computes the staged reference: it fails exactly
      when some listing or fetch fails, and otherwise yields the lookups of
      the first auto-scaling group of each candidate, in enumeration order,
      numbered from the run's first DescribeAutoScalingGroups call. */
  lemma ResolveMatchesReference(cd: CodeDeploy, asc: AutoScaling, apps: seq<string>)
    ensures FetchGroups(cd, apps).Failure? ==>
              ResolveApps(cd, asc, apps, NoResolution) == Failure(FetchGroups(cd, apps).error)
    ensures FetchGroups(cd, apps).Success? ==>
              ResolveApps(cd, asc, apps, NoResolution) == Success(Reference(asc, 0, FetchGroups(cd, apps).value))
  {
    ResolveAppsIsStaged(cd, asc, apps, NoResolution);
    match FetchGroups(cd, apps)
    case Failure(_) =>
    case Success(gs) =>
      var r := Reference(asc, 0, gs);
      assert [] + r.targets == r.targets;
      assert [] + r.described == r.described;
  }

  /** Enumeration failures are fatal: resolution succeeds exactly when every
      application's deployment groups can be listed and fetched. */
  lemma ResolveSucceedsIff(cd: CodeDeploy, asc: AutoScaling, apps: seq<string>)
    ensures ResolveApps(cd, asc, apps, NoResolution).Success? <==>
            forall k :: 0 <= k < |apps| ==> GroupsFetchable(cd, apps[k])
    ensures ResolveApps(cd, asc, apps, NoResolution).Failure? ==>
            ResolveApps(cd, asc, apps, NoResolution).error != NoTargets
  {
    ResolveMatchesReference(cd, asc, apps);
    FetchGroupsSpec(cd, apps);
  }

  /** The `k`-th candidate's lookup (call `call + k`) succeeded and returned `t`. */
  ghost predicate LookupReturned(asc: AutoScaling, call: nat, cs: seq<DeploymentGroupInfo>, k: int, t: AutoScalingGroup)
    requires forall j :: 0 <= j < |cs| ==> |cs[j].autoScalingGroups| > 0
  {
    && 0 <= k < |cs|
    && asc.describe(call + k, cs[k].autoScalingGroups[0]).Success?
    && t in asc.describe(call + k, cs[k].autoScalingGroups[0]).value
  }

  /** The staged reference's targets are exactly what the lookups of the
      candidates' first auto-scaling groups returned, each at its own call. */
  lemma ReferenceTargets(asc: AutoScaling, call: nat, gs: seq<DeploymentGroupInfo>, t: AutoScalingGroup)
    ensures t in Reference(asc, call, gs).targets <==>
            exists k :: LookupReturned(asc, call, Candidates(gs), k, t)
  {
    var names := FirstNames(Candidates(gs));
    FoundMembers(asc, call, names, t);
    if k :| NameReturned(asc, call, names, k, t) {
      assert LookupReturned(asc, call, Candidates(gs), k, t);
    }
    if k :| LookupReturned(asc, call, Candidates(gs), k, t) {
      assert NameReturned(asc, call, names, k, t);
    }
  }

  /** The staged reference looks up exactly the first auto-scaling group of
      each candidate. */
  lemma ReferenceDescribed(asc: AutoScaling, call: nat, gs: seq<DeploymentGroupInfo>, n: string)
    ensures n in Reference(asc, call, gs).described <==>
            exists g :: g in gs && Eligible(g) && |g.autoScalingGroups| > 0 && n == g.autoScalingGroups[0]
  {
    var cs := Candidates(gs);
    var names := FirstNames(cs);
    if n in names {
      var k :| 0 <= k < |names| && names[k] == n;
      CandidatesMembers(gs, cs[k]);
    }
    if g :| g in gs && Eligible(g) && |g.autoScalingGroups| > 0 && n == g.autoScalingGroups[0] {
      CandidatesMembers(gs, g);
      var k :| 0 <= k < |cs| && cs[k] == g;
      assert names[k] == n;
    }
  }

  /** Once enumeration succeeds, resolution succeeds; a target is a group that
      the lookup of some candidate's first auto-scaling group returned (the
      candidates being the eligible fetched deployment groups that name one),
      and every such group is a target; and the only names looked up are the
      first auto-scaling groups of eligible deployment groups. */
  lemma TargetsSoundAndComplete(cd: CodeDeploy, asc: AutoScaling, apps: seq<string>, t: AutoScalingGroup, n: string)
    requires FetchGroups(cd, apps).Success?
    ensures ResolveApps(cd, asc, apps, NoResolution).Success?
    ensures t in ResolveApps(cd, asc, apps, NoResolution).value.targets <==>
            exists k :: LookupReturned(asc, 0, Candidates(FetchGroups(cd, apps).value), k, t)
    ensures n in ResolveApps(cd, asc, apps, NoResolution).value.described <==>
            exists g :: g in FetchGroups(cd, apps).value && Eligible(g) && |g.autoScalingGroups| > 0
                        && n == g.autoScalingGroups[0]
  {
    ResolveMatchesReference(cd, asc, apps);
    ReferenceTargets(asc, 0, FetchGroups(cd, apps).value, t);
    ReferenceDescribed(asc, 0, FetchGroups(cd, apps).value, n);
  }

  /** A failed lookup for one deployment group removes only that group's
      targets. It still counts as a call: the groups after it resolve with
      their lookups numbered one further, as the Go loop issues them. */
  lemma LookupFailureSkipsOnlyThatGroup(asc: AutoScaling, call: nat, before: seq<DeploymentGroupInfo>,
                                        g: DeploymentGroupInfo, after: seq<DeploymentGroupInfo>)
    requires Eligible(g) && |g.autoScalingGroups| > 0
    requires asc.describe(call + |Reference(asc, call, before).described|, g.autoScalingGroups[0]).Failure?
    ensures var next := call + |Reference(asc, call, before).described| + 1;
            && Reference(asc, call, before + [g] + after).targets ==
                 Reference(asc, call, before).targets + Reference(asc, next, after).targets
            && Reference(asc, call, before + [g] + after).described ==
                 Reference(asc, call, before).described + [g.autoScalingGroups[0]] + Reference(asc, next, after).described
  {
    var c1 := call + |Reference(asc, call, before).described|;
    ReferenceConcat(asc, call, before, [g]);
    ReferenceSingle(asc, c1, g);
    ReferenceConcat(asc, call, before + [g], after);
  }

  /** `NoTargets` is the outcome exactly of a successful walk with no target. */
  lemma NoTargetsMeansEmptyWalk(cd: CodeDeploy, asc: AutoScaling, apps: seq<string>)
    ensures GetAutoScalingGroups(cd, asc, apps) == Failure(NoTargets) <==>
            ResolveApps(cd, asc, apps, NoResolution).Success? && ResolveApps(cd, asc, apps, NoResolution).value.targets == []
  {
    ResolveSucceedsIff(cd, asc, apps);
  }

  /** The run aborts with no targets exactly when enumeration succeeds but no
      lookup of a candidate's first auto-scaling group returns a group. */
  lemma NoTargetsIff(cd: CodeDeploy, asc: AutoScaling, apps: seq<string>)
    ensures GetAutoScalingGroups(cd, asc, apps) == Failure(NoTargets) <==>
            FetchGroups(cd, apps).Success? &&
            forall k, t :: !LookupReturned(asc, 0, Candidates(FetchGroups(cd, apps).value), k, t)
  {
    NoTargetsMeansEmptyWalk(cd, asc, apps);
    ResolveMatchesReference(cd, asc, apps);
    if FetchGroups(cd, apps).Success? {
      var targets := ResolveApps(cd, asc, apps, NoResolution).value.targets;
      if |targets| > 0 {
        TargetsSoundAndComplete(cd, asc, apps, targets[0], "");
      } else {
        forall k, t | LookupReturned(asc, 0, Candidates(FetchGroups(cd, apps).value), k, t)
          ensures false
        {
          TargetsSoundAndComplete(cd, asc, apps, t, "");
          assert exists k' :: LookupReturned(asc, 0, Candidates(FetchGroups(cd, apps).value), k', t);
        }
      }
    }
  }
}

=== FILE: updater.dfy ===
/** Launch-template update: for each target auto-scaling group, a new
    version of its launch template that boots the new image, at most one
    successful create per template. */
module Updater {
  import opened Wrappers
  import opened Records

  /** The version every request reads from and bases the new version on. */
  const LatestVersion := "$Latest"

  /** The device mapping requested for the new version: the device name and
      the EBS settings of the current first mapping, with the image's
      snapshot in place of the current one. The KMS key id, NoDevice and
      VirtualName are not copied. */
  function RequestMapping(current: BlockDeviceMapping, snapshotId: Option<string>): (r: BlockDeviceMapping)
    requires current.ebs.Some?
    ensures r.deviceName == current.deviceName
    ensures r.ebs.Some?
    ensures r.ebs.value.snapshotId == snapshotId
    ensures r.ebs.value.deleteOnTermination == current.ebs.value.deleteOnTermination
    ensures r.ebs.value.encrypted == current.ebs.value.encrypted
    ensures r.ebs.value.iops == current.ebs.value.iops
    ensures r.ebs.value.throughput == current.ebs.value.throughput
    ensures r.ebs.value.volumeSize == current.ebs.value.volumeSize
    ensures r.ebs.value.volumeType == current.ebs.value.volumeType
    ensures r.ebs.value.kmsKeyId.None? && r.noDevice.None? && r.virtualName.None?
  {
    var ebs := current.ebs.value;
    BlockDeviceMapping(
      current.deviceName,
      Some(Ebs(ebs.deleteOnTermination, ebs.encrypted, ebs.iops, None, snapshotId,
               ebs.throughput, ebs.volumeSize, ebs.volumeType)),
      None,
      None)
  }

  /** Only the snapshot is replaced: putting the current snapshot back
      yields the current mapping, when it has none of the fields that are
      not copied. */
  lemma RequestMappingRestoresCurrent(current: BlockDeviceMapping)
    requires current.ebs.Some?
    requires current.ebs.value.kmsKeyId.None? && current.noDevice.None? && current.virtualName.None?
    ensures RequestMapping(current, current.ebs.value.snapshotId) == current
  {
  }

  /** The CreateLaunchTemplateVersion request for template `templateId`. */
  function NewVersionRequest(templateId: string, imageId: string, mapping: BlockDeviceMapping): CreateVersionRequest {
    CreateVersionRequest(templateId, imageId, [mapping], LatestVersion, true)
  }

  /** The current version can be turned into a request: it has a first
      block-device mapping with EBS settings. */
  predicate Readable(versions: seq<LaunchTemplateVersion>) {
    |versions| > 0 && |versions[0].blockDeviceMappings| > 0 && versions[0].blockDeviceMappings[0].ebs.Some?
  }

  /** What happened for one auto-scaling group. */
  datatype AsgOutcome =
    | TemplateUnreadable(templateId: string)     // reading $Latest failed: skipped
    | AlreadyUpdated(templateId: string)         // template updated earlier in the run: no create call
    | Created(request: CreateVersionRequest)     // create call issued and succeeded
    | CreateFailed(request: CreateVersionRequest) // create call issued and failed
  {
    function TemplateId(): string {
      match this
      case TemplateUnreadable(t) => t
      case AlreadyUpdated(t) => t
      case Created(req) => req.launchTemplateId
      case CreateFailed(req) => req.launchTemplateId
    }

    /** A create call was issued. */
    predicate Attempted() {
      Created? || CreateFailed?
    }
  }

  /** The fold's state: the template ids marked as updated, and one outcome
      per auto-scaling group processed so far. */
  datatype UpdateState = UpdateState(updated: set<string>, log: seq<AsgOutcome>)

  const Initial := UpdateState({}, [])

  /** A run of the update loop either processes every group or panics on one,
      after whatever it did for the groups before it. */
  datatype UpdateRun = Finished(state: UpdateState) | Crashed(crash: Crash, state: UpdateState)

  /** Processing the auto-scaling group at position `i`. The template is read
      and the request built before the dedup check; a create call is issued
      only for a template not yet marked, and the template is marked only
      when the call succeeds. */
  function Step(ec2: Ec2, imageId: string, snapshotId: Option<string>, i: nat, asg: AutoScalingGroup, st: UpdateState)
    : (r: UpdateRun)
    ensures asg.launchTemplateId.None? ==> r == Crashed(NoLaunchTemplate(asg.name), st)
    ensures r.Crashed? ==> r.state == st
    ensures r.Finished? ==>
              && asg.launchTemplateId.Some?
              && |r.state.log| == |st.log| + 1
              && r.state.log[..|st.log|] == st.log
              && r.state.log[|st.log|].TemplateId() == asg.launchTemplateId.value
              && r.state.updated == st.updated + (if r.state.log[|st.log|].Created? then {asg.launchTemplateId.value} else {})
  {
    match asg.launchTemplateId
    case None => Crashed(NoLaunchTemplate(asg.name), st)
    case Some(tid) =>
      match ec2.latestVersions(i, tid)
      case Failure(_) => Finished(UpdateState(st.updated, st.log + [TemplateUnreadable(tid)]))
      case Success(versions) =>
        if |versions| == 0 then Crashed(NoTemplateVersion(tid), st)
        else if |versions[0].blockDeviceMappings| == 0 then Crashed(NoTemplateMapping(tid), st)
        else if versions[0].blockDeviceMappings[0].ebs.None? then Crashed(NoTemplateEbs(tid), st)
        else
          var req := NewVersionRequest(tid, imageId, RequestMapping(versions[0].blockDeviceMappings[0], snapshotId));
          if tid in st.updated then Finished(UpdateState(st.updated, st.log + [AlreadyUpdated(tid)]))
          else match ec2.createVersion(i, req)
            case Failure(_) => Finished(UpdateState(st.updated, st.log + [CreateFailed(req)]))
            case Success(_) => Finished(UpdateState(st.updated + {tid}, st.log + [Created(req)]))
  }

  /** The update loop over the groups from position `i` on. */
  function Fold(ec2: Ec2, imageId: string, snapshotId: Option<string>, asgs: seq<AutoScalingGroup>, i: nat, st: UpdateState)
    : (r: UpdateRun)
    requires i <= |asgs|
    ensures |st.log| <= |r.state.log| <= |st.log| + (|asgs| - i)
    ensures r.state.log[..|st.log|] == st.log
    ensures st.updated <= r.state.updated
    ensures r.Finished? ==> |r.state.log| == |st.log| + (|asgs| - i)
    decreases |asgs| - i
  {
    if i == |asgs| then Finished(st)
    else match Step(ec2, imageId, snapshotId, i, asgs[i], st)
      case Crashed(c, st') => Crashed(c, st')
      case Finished(st') => Fold(ec2, imageId, snapshotId, asgs, i + 1, st')
  }

  /** The snapshot of the image's first block-device mapping. */
  function ImageSnapshot(images: seq<Image>): Option<string>
    requires |images| > 0 && |images[0].blockDeviceMappings| > 0 && images[0].blockDeviceMappings[0].ebs.Some?
  {
    images[0].blockDeviceMappings[0].ebs.value.snapshotId
  }

  /** The whole update: the image's snapshot is read once, then the loop
      runs. A failed DescribeImages aborts the run. */
  function ModifyLaunchTemplates(ec2: Ec2, asgs: seq<AutoScalingGroup>, imageId: string): (r: Result<UpdateRun, Fatal>)
    ensures r.Failure? <==> ec2.describeImages(imageId).Failure?
    ensures r.Failure? ==> r.error == DescribeImagesFailed(imageId)
    ensures r.Success? ==> |r.value.state.log| <= |asgs| && (r.value.Finished? ==> |r.value.state.log| == |asgs|)
  {
    match ec2.describeImages(imageId)
    case Failure(_) => Failure(DescribeImagesFailed(imageId))
    case Success(images) =>
      if |images| == 0 then Success(Crashed(NoImage, Initial))
      else if |images[0].blockDeviceMappings| == 0 then Success(Crashed(NoImageMapping, Initial))
      else if images[0].blockDeviceMappings[0].ebs.None? then Success(Crashed(NoImageEbs, Initial))
      else Success(Fold(ec2, imageId, ImageSnapshot(images), asgs, 0, Initial))
  }

  // ---------------------------------------------------------------------
  // Specification of the update loop.

  /** The template ids of the successful creates in `log`. */
  function CreatedIds(log: seq<AsgOutcome>): set<string>
    decreases |log|
  {
    if |log| == 0 then {}
    else
      var last := log[|log| - 1];
      CreatedIds(log[..|log| - 1]) + (if last.Created? then {last.TemplateId()} else {})
  }

  lemma {:induction false} CreatedIdsMembers(log: seq<AsgOutcome>, t: string)
    ensures t in CreatedIds(log) <==> exists j :: 0 <= j < |log| && log[j].Created? && log[j].TemplateId() == t
    decreases |log|
  {
    if |log| > 0 {
      var init := log[..|log| - 1];
      CreatedIdsMembers(init, t);
      forall j | 0 <= j < |init|
        ensures init[j] == log[j]
      {
      }
    }
  }

  /** Dedup: a group whose template was read is skipped as already updated
      exactly when an earlier group's create for the same template succeeded.
      So a successful create happens at most once per template, and a failed
      one is attempted again by the next group that shares the template. */
  ghost predicate DedupFaithful(log: seq<AsgOutcome>) {
    forall k :: 0 <= k < |log| && !log[k].TemplateUnreadable? ==>
      (log[k].AlreadyUpdated? <==> log[k].TemplateId() in CreatedIds(log[..k]))
  }

  /** The outcome recorded for the `k`-th group agrees with what the services
      answered for it: the template it names, the template read, the request
      (built from the read mapping and the run's snapshot), and the create. */
  ghost predicate Justified(ec2: Ec2, imageId: string, snapshotId: Option<string>, k: nat, asg: AutoScalingGroup, e: AsgOutcome) {
    var tid := e.TemplateId();
    && asg.launchTemplateId == Some(tid)
    && (e.TemplateUnreadable? <==> ec2.latestVersions(k, tid).Failure?)
    && (!e.TemplateUnreadable? ==> Readable(ec2.latestVersions(k, tid).value))
    && (e.Attempted() ==>
          e.request == NewVersionRequest(tid, imageId,
                         RequestMapping(ec2.latestVersions(k, tid).value[0].blockDeviceMappings[0], snapshotId)))
    && (e.Created? ==> ec2.createVersion(k, e.request).Success?)
    && (e.CreateFailed? ==> ec2.createVersion(k, e.request).Failure?)
  }

  /** Why the group at position `k` made the run panic. */
  ghost predicate CrashFor(ec2: Ec2, k: nat, asg: AutoScalingGroup, c: Crash) {
    match c
    case NoLaunchTemplate(name) => asg.launchTemplateId.None? && name == asg.name
    case NoTemplateVersion(tid) =>
      asg.launchTemplateId == Some(tid) && ec2.latestVersions(k, tid).Success?
      && |ec2.latestVersions(k, tid).value| == 0
    case NoTemplateMapping(tid) =>
      asg.launchTemplateId == Some(tid) && ec2.latestVersions(k, tid).Success?
      && |ec2.latestVersions(k, tid).value| > 0
      && |ec2.latestVersions(k, tid).value[0].blockDeviceMappings| == 0
    case NoTemplateEbs(tid) =>
      asg.launchTemplateId == Some(tid) && ec2.latestVersions(k, tid).Success?
      && |ec2.latestVersions(k, tid).value| > 0
      && |ec2.latestVersions(k, tid).value[0].blockDeviceMappings| > 0
      && ec2.latestVersions(k, tid).value[0].blockDeviceMappings[0].ebs.None?
    case _ => false
  }

  /** What holds of the state after the first |st.log| groups. */
  ghost predicate Invariant(ec2: Ec2, imageId: string, snapshotId: Option<string>, asgs: seq<AutoScalingGroup>, st: UpdateState) {
    && |st.log| <= |asgs|
    && st.updated == CreatedIds(st.log)
    && DedupFaithful(st.log)
    && forall k :: 0 <= k < |st.log| ==> Justified(ec2, imageId, snapshotId, k, asgs[k], st.log[k])
  }

  lemma InvariantInitial(ec2: Ec2, imageId: string, snapshotId: Option<string>, asgs: seq<AutoScalingGroup>)
    ensures Invariant(ec2, imageId, snapshotId, asgs, Initial)
  {
  }

  /** Appending one outcome keeps the dedup characterisation when the new
      outcome's skip decision was taken against the marked set. */
  lemma DedupAppend(st: UpdateState, e: AsgOutcome)
    requires st.updated == CreatedIds(st.log)
    requires DedupFaithful(st.log)
    requires !e.TemplateUnreadable? ==> (e.AlreadyUpdated? <==> e.TemplateId() in st.updated)
    ensures DedupFaithful(st.log + [e])
    ensures CreatedIds(st.log + [e]) == st.updated + (if e.Created? then {e.TemplateId()} else {})
  {
    var log := st.log + [e];
    assert log[..|st.log|] == st.log;
    forall k | 0 <= k < |st.log|
      ensures log[..k] == st.log[..k]
    {
    }
  }

  /** One step, in terms of the services' answers: it panics with the state
      unchanged, or appends one justified outcome whose skip decision is taken
      against the marked set, marking the template only on a successful create. */
  lemma StepOutcome(ec2: Ec2, imageId: string, snapshotId: Option<string>, i: nat, asg: AutoScalingGroup, st: UpdateState)
    ensures var r := Step(ec2, imageId, snapshotId, i, asg, st);
            && (r.Crashed? ==> r.state == st && CrashFor(ec2, i, asg, r.crash))
            && (r.Finished? ==>
                  && |r.state.log| == |st.log| + 1
                  && r.state.log == st.log + [r.state.log[|st.log|]]
                  && var e := r.state.log[|st.log|];
                     && Justified(ec2, imageId, snapshotId, i, asg, e)
                     && (!e.TemplateUnreadable? ==> (e.AlreadyUpdated? <==> e.TemplateId() in st.updated))
                     && r.state.updated == st.updated + (if e.Created? then {e.TemplateId()} else {}))
  {
  }

  /** One step keeps the invariant; it appends one outcome or panics with the
      state unchanged. */
  lemma StepSpec(ec2: Ec2, imageId: string, snapshotId: Option<string>, asgs: seq<AutoScalingGroup>, st: UpdateState)
    requires |st.log| < |asgs|
    requires Invariant(ec2, imageId, snapshotId, asgs, st)
    ensures var r := Step(ec2, imageId, snapshotId, |st.log|, asgs[|st.log|], st);
            && (r.Finished? ==>
                  && |r.state.log| == |st.log| + 1
                  && r.state.log[..|st.log|] == st.log
                  && Invariant(ec2, imageId, snapshotId, asgs, r.state))
            && (r.Crashed? ==> r.state == st && CrashFor(ec2, |st.log|, asgs[|st.log|], r.crash))
  {
    var i := |st.log|;
    var r := Step(ec2, imageId, snapshotId, i, asgs[i], st);
    StepOutcome(ec2, imageId, snapshotId, i, asgs[i], st);
    if r.Finished? {
      var e := r.state.log[i];
      InvariantAppend(ec2, imageId, snapshotId, asgs, st, e);
      assert r.state == Appended(st, e);
    }
  }

  /** The state after recording outcome `e`. */
  function Appended(st: UpdateState, e: AsgOutcome): UpdateState {
    UpdateState(st.updated + (if e.Created? then {e.TemplateId()} else {}), st.log + [e])
  }

  /** Recording a justified outcome for the next group, with the skip decision
      taken against the marked set, keeps the invariant. */
  lemma InvariantAppend(ec2: Ec2, imageId: string, snapshotId: Option<string>, asgs: seq<AutoScalingGroup>,
                        st: UpdateState, e: AsgOutcome)
    requires |st.log| < |asgs|
    requires Invariant(ec2, imageId, snapshotId, asgs, st)
    requires Justified(ec2, imageId, snapshotId, |st.log|, asgs[|st.log|], e)
    requires !e.TemplateUnreadable? ==> (e.AlreadyUpdated? <==> e.TemplateId() in st.updated)
    ensures Invariant(ec2, imageId, snapshotId, asgs, Appended(st, e))
    ensures Appended(st, e).log[..|st.log|] == st.log
  {
    var log := st.log + [e];
    DedupAppend(st, e);
    assert log[..|st.log|] == st.log;
    forall k | 0 <= k < |log|
      ensures Justified(ec2, imageId, snapshotId, k, asgs[k], log[k])
    {
      if k < |st.log| {
        assert log[k] == st.log[k];
      }
    }
  }

  /** The loop keeps the invariant: it processes every remaining group, or
      stops at the group that made it panic. */
  lemma {:induction false} FoldSpec(ec2: Ec2, imageId: string, snapshotId: Option<string>, asgs: seq<AutoScalingGroup>,
                                    i: nat, st: UpdateState)
    requires i == |st.log| <= |asgs|
    requires Invariant(ec2, imageId, snapshotId, asgs, st)
    ensures var r := Fold(ec2, imageId, snapshotId, asgs, i, st);
            && Invariant(ec2, imageId, snapshotId, asgs, r.state)
            && |st.log| <= |r.state.log|
            && r.state.log[..|st.log|] == st.log
            && (r.Finished? ==> |r.state.log| == |asgs|)
            && (r.Crashed? ==> |r.state.log| < |asgs| && CrashFor(ec2, |r.state.log|, asgs[|r.state.log|], r.crash))
    decreases |asgs| - i
  {
    if i < |asgs| {
      StepSpec(ec2, imageId, snapshotId, asgs, st);
      var s := Step(ec2, imageId, snapshotId, i, asgs[i], st);
      if s.Finished? {
        var st' := s.state;
        FoldSpec(ec2, imageId, snapshotId, asgs, i + 1, st');
        var r := Fold(ec2, imageId, snapshotId, asgs, i + 1, st');
        assert Fold(ec2, imageId, snapshotId, asgs, i, st) == r;
        PrefixTransitive(st.log, st'.log, r.state.log);
      } else {
        assert Fold(ec2, imageId, snapshotId, asgs, i, st) == s;
      }
    } else {
      assert st.log[..|st.log|] == st.log;
    }
  }

  lemma PrefixTransitive(a: seq<AsgOutcome>, b: seq<AsgOutcome>, c: seq<AsgOutcome>)
    requires |a| <= |b| <= |c| && b[..|a|] == a && c[..|b|] == b
    ensures c[..|a|] == a
  {
    assert c[..|a|] == c[..|b|][..|a|];
  }

  /** The update aborts exactly when DescribeImages fails; an image without
      a first EBS mapping panics before any template is touched; otherwise
      every group gets an outcome justified by the services' answers, all
      requests use the snapshot read once from the image, the marked set is
      the set of successful creates, and the dedup characterisation holds. */
  lemma ModifyLaunchTemplatesSpec(ec2: Ec2, asgs: seq<AutoScalingGroup>, imageId: string)
    ensures ModifyLaunchTemplates(ec2, asgs, imageId).Failure? <==> ec2.describeImages(imageId).Failure?
    ensures ModifyLaunchTemplates(ec2, asgs, imageId).Success? ==>
              var images := ec2.describeImages(imageId).value;
              var run := ModifyLaunchTemplates(ec2, asgs, imageId).value;
              if |images| > 0 && |images[0].blockDeviceMappings| > 0 && images[0].blockDeviceMappings[0].ebs.Some? then
                && Invariant(ec2, imageId, ImageSnapshot(images), asgs, run.state)
                && (run.Finished? ==> |run.state.log| == |asgs|)
                && (run.Crashed? ==> |run.state.log| < |asgs|
                                     && CrashFor(ec2, |run.state.log|, asgs[|run.state.log|], run.crash))
              else
                && run.Crashed? && run.state == Initial
                && run.crash == (if |images| == 0 then NoImage
                                 else if |images[0].blockDeviceMappings| == 0 then NoImageMapping
                                 else NoImageEbs)
  {
    match ec2.describeImages(imageId)
    case Failure(_) =>
    case Success(images) =>
      if |images| > 0 && |images[0].blockDeviceMappings| > 0 && images[0].blockDeviceMappings[0].ebs.Some? {
        InvariantInitial(ec2, imageId, ImageSnapshot(images), asgs);
        FoldSpec(ec2, imageId, ImageSnapshot(images), asgs, 0, Initial);
      }
  }

  /** At most one successful create per template: once a create for a
      template has succeeded, no later group issues a create for it. */
  lemma AtMostOnceCreate(log: seq<AsgOutcome>, j: nat, k: nat)
    requires DedupFaithful(log)
    requires j < k < |log|
    requires log[j].Created? && log[k].Attempted()
    ensures log[j].TemplateId() != log[k].TemplateId()
  {
    CreatedIdsMembers(log[..k], log[j].TemplateId());
    assert log[..k][j] == log[j];
  }

  /** A failed create leaves the template unmarked: the next group sharing the
      template whose read succeeds issues a create again, unless a create for
      it succeeded in between. */
  lemma FailedCreateIsRetried(log: seq<AsgOutcome>, j: nat, k: nat)
    requires DedupFaithful(log)
    requires j < k < |log|
    requires log[j].CreateFailed? && !log[k].TemplateUnreadable? && log[k].TemplateId() == log[j].TemplateId()
    requires forall m :: j < m < k ==> !(log[m].Created? && log[m].TemplateId() == log[j].TemplateId())
    ensures log[k].Attempted()
  {
    var t := log[j].TemplateId();
    CreatedIdsMembers(log[..j], t);
    CreatedIdsMembers(log[..k], t);
    forall m | 0 <= m < k
      ensures log[..k][m] == log[m]
      ensures m < j ==> log[..j][m] == log[m]
    {
    }
  }

  /** Every create request carries the new image id, exactly one device
      mapping with the run's snapshot, source version $Latest and DryRun set. */
  lemma RequestShape(ec2: Ec2, imageId: string, snapshotId: Option<string>, k: nat, asg: AutoScalingGroup, e: AsgOutcome)
    requires Justified(ec2, imageId, snapshotId, k, asg, e)
    requires e.Attempted()
    ensures asg.launchTemplateId == Some(e.request.launchTemplateId)
    ensures e.request.imageId == imageId
    ensures |e.request.blockDeviceMappings| == 1
    ensures e.request.blockDeviceMappings[0].ebs.Some?
    ensures e.request.blockDeviceMappings[0].ebs.value.snapshotId == snapshotId
    ensures e.request.sourceVersion == "$Latest"
    ensures e.request.dryRun
  {
  }
}

=== FILE: wrappers.dfy ===
/** Failure-compatible wrappers used throughout the model. */
module Wrappers {

  /** An optional value; stands for a Go pointer that may be nil. */
  datatype Option<+T> = None | Some(value: T)

  /** Either a value or an error; usable with `:-`. */
  datatype Result<+T, +E> = Success(value: T) | Failure(error: E) {

    predicate IsFailure() {
      Failure?
    }

    function PropagateFailure<U>(): Result<U, E>
      requires Failure?
    {
      Failure(error)
    }

    function Extract(): T
      requires Success?
    {
      value
    }
  }
}
